=== FILE: README.md ===
# wampy client core in Dafny

A model of how the wampy WAMP client turns an inbound wire frame into a state
change. WAMP is the Web Application Messaging Protocol
(draft-oberstet-hybi-tavendo-wamp; message codes from section 6.5 of the -02
draft). The model covers five pieces:

- The RESULT (50) and REGISTERED (65) message classes. Each has a constructor
  that checks the leading code and builds a fixed-shape wire list. Each has a
  `process` that either queues the frame or updates the registration table.
- `MessageHandler`. It holds an allow-list of message classes and builds a
  code -> class table from it. It rejects codes the table lacks. Otherwise it
  constructs the class from the frame and runs its `process` once.
- `Client`. It chooses default roles and takes its realm from the router. It
  records REGISTER and SUBSCRIBE request ids, sends and then receives, and
  passes inbound frames to its handler. The `registration_map` and
  `subscription_map` properties are `Clients.RegistrationMap` and
  `Clients.SubscriptionMap`.
- The older `ClientBase._handle_message`. It is a per-code state machine over
  WELCOME, REGISTERED, INVOCATION (answered with YIELD), RESULT and GOODBYE,
  working on the process-wide registry. `_register_entrypoints` fills that
  registry.
- `Crossbar` configuration validation, `can_use_tls`, and the address-family
  branch of `try_connection`.

Everything is a pure function over immutable records, except one method.
Frames are `seq<Value>` with `Value = Null | Bool | Int | Str | List | Dict`
(there are no floats).
Python exceptions are `Err` results (`Python.Exc`). The session's inbound
queue is a sequence and its outbound traffic is a log (`Sessions.Session`).
Some things the code cannot see are inputs: whether a send raises, what a
procedure returns, whether a REGISTERED came back in time and which
registration id it carried, the parsed URL,
and whether a socket connects.

Files: `python.dfy` (values, truthiness, exceptions, subscripts),
`tables.dfy` (sequential dict assignment, last write wins),
`message_types.dfy` (codes, classes), `sessions.dfy`, `result_message.dfy`,
`registered_message.dfy`, `handlers.dfy`, `clients.dfy`, `bases.dfy`,
`routers.dfy`.

## Model

| member | source | states |
|---|---|---|
| ResultMessages.New | wampy/messages/result.py:26-41 | Construction succeeds iff there are 3-5 arguments and the first is 50. Too few or too many is `TypeError`; a wrong code is `AssertionError`. The fields are the inputs. The wire list always has 5 slots, starts with 50, begins with the arguments given, and has null in every missing slot. |
| ResultMessages.RoundTrip | wampy/messages/result.py:31-41 | Constructing a RESULT from its own wire list gives back the same message. |
| ResultMessages.Process | wampy/messages/result.py:43-45 | The raw frame is appended to the session queue unchanged. The registration table, subscription table, sent log and delegated log are untouched. |
| RegisteredMessages.New | wampy/messages/registered.py:13-21 | Construction succeeds iff there are exactly 3 arguments and the first is 65. Otherwise it is `TypeError` or `AssertionError`. The wire list equals the arguments, that is `[65, request_id, registration_id]`. |
| RegisteredMessages.RoundTrip | wampy/messages/registered.py:14-21 | Constructing a REGISTERED from its own wire list gives back the same message. |
| RegisteredMessages.Process | wampy/messages/registered.py:23-27 | It succeeds iff the frame has 3 elements and its request id is a key of `request_ids`. Otherwise it is `ValueError` or `KeyError(request_id)`. After it, `registration_map[registration_id] == request_ids[request_id]`. Every other registration entry and all other session state is unchanged. |
| Handlers.New | wampy/messages/handlers/default.py:14-48 | With no list, the handled classes are the nine defaults. A given list is kept exactly as given, including an empty one. The table's keys are exactly the listed classes' codes. Each key maps to a listed class that carries that code. |
| Handlers.Configure | wampy/messages/handlers/default.py:53-56 | The table's keys are exactly the codes of the listed classes. Each entry is one of the listed classes and carries its key as `WAMP_CODE`. |
| Handlers.ConfigureLaterWins | wampy/messages/handlers/default.py:53-56 | If no later class shares class i's code, the table maps that code to class i. When two classes share a code, the later one wins. |
| Handlers.DefaultHandlerTable | wampy/messages/handlers/default.py:25-39 | The default handler's table has exactly the keys {2, 6, 65, 68, 70, 50, 8, 33, 36}. It routes 50 to `Result` and 65 to `Registered`. |
| Handlers.DefaultKeys | wampy/messages/handlers/default.py:25-39 | The table built from the default class list has exactly the nine codes WELCOME, GOODBYE, REGISTERED, INVOCATION, YIELD, RESULT, ERROR, SUBSCRIBED and EVENT as keys. |
| Handlers.DefaultRoutesResult | wampy/messages/handlers/default.py:25-39 | The table built from the default class list maps 50 to `Result`. |
| Handlers.DefaultRoutesRegistered | wampy/messages/handlers/default.py:25-39 | The table built from the default class list maps 65 to `Registered`. |
| Handlers.Construct | wampy/messages/handlers/default.py:71-72 | RESULT builds iff it has 3-5 arguments led by 50; REGISTERED builds iff it has 3 arguments led by 65. Each built message's wire list reproduces the frame. Any other class builds from the frame as given. The only construction errors are `TypeError` and `AssertionError`. |
| Handlers.HandleMessage | wampy/messages/handlers/default.py:58-73 | An empty frame is `IndexError`. A code the table lacks is `WampyError` naming that code, and then no `process` runs. A handled code builds the mapped class from the frame's elements. A construction error is returned unchanged. Otherwise the result is that message's `process` applied once to the original frame. |
| Handlers.HandleMessageAsWritten | wampy/messages/handlers/default.py:58-69 | As the code is written: a code that is not in the message-type table (and is not a list or dict) raises `KeyError` for that code. This happens whether or not a handler is configured for it. |
| Handlers.HandleMessageAgreesOnNamedCodes | wampy/messages/handlers/default.py:58-73 | When the code has a name in the message-type table, the as-written handler and the corrected one give the same result. |
| Handlers.UnnamedCodeRaisesKeyError | wampy/messages/handlers/default.py:60-64 | For a code that neither table knows, the as-written handler raises `KeyError(code)`. The corrected one raises `WampyError(NoHandlerFor(code, None))`. |
| Handlers.DefaultTableOn999 | wampy/messages/handlers/default.py:60-64 | Frame `[999]` through a handler with the default table: `KeyError(999)` as written, `WampyError` once corrected. |
| Handlers.Call | wampy/messages/handlers/default.py:50-51 | Calling the handler is the same as `handle_message` with the same arguments. |
| Handlers.HandleResultQueuesFrame | wampy/messages/handlers/default.py:58-73 | A RESULT frame with 3-5 elements goes through a handler that routes 50 to `Result`. The frame is queued unchanged and nothing else changes. |
| Handlers.HandleRegisteredBinds | wampy/messages/handlers/default.py:58-73 | A 3-element REGISTERED frame goes through a handler that routes 65 to `Registered`. A known request id binds the registration id to that id's entry. An unknown request id gives `KeyError`. |
| Handlers.HandleOtherProcessesOnce | wampy/messages/handlers/default.py:71-73 | For any other handled class, its `process` runs exactly once, on the original frame. |
| Clients.DefaultRoles | wampy/peers/clients.py:20-29 | `DEFAULT_ROLES` declares exactly the subscriber, publisher, callee and caller roles under `roles`. Callee has `shared_registration: True`; the others are empty. |
| Clients.New | wampy/peers/clients.py:31-50 | Roles are the defaults when roles are absent or falsy, and the given roles otherwise. The realm is always `router.realm`. A missing handler becomes exactly `MessageHandler()` with the default table. `request_ids` and the session start empty. |
| Clients.FreshClientHasDefaultTable | wampy/peers/clients.py:41 | A client built without a handler dispatches exactly the nine default codes. |
| Clients.FreshClientRegisters | wampy/peers/clients.py:150-167 | On a freshly built client with the default handler, a REGISTER that went out and its REGISTERED leave the registration map holding exactly that registration id -> procedure name. |
| Clients.RegistrationMap | wampy/peers/clients.py:63-65 | The `registration_map` property is the session's registration table. REGISTER does not change it (see `Clients.RegisterProcedure`), and, for the modelled classes, neither does any processed frame other than a REGISTERED (see `Clients.OnlyRegisteredChangesRegistrationMap`). |
| Clients.OnlyRegisteredChangesRegistrationMap | wampy/peers/clients.py:90-92 | A frame not led by 65 that the client processes successfully leaves the registration map as it was. This holds for the modelled classes; any other class's `process` is taken to touch only the delegated log (see "## Left out"). |
| Clients.SubscriptionMap | wampy/peers/clients.py:59-61 | The `subscription_map` property is the session's subscription table. |
| Clients.RegisterProcedure | wampy/peers/clients.py:150-171 | A send that raises `ValueError` or a subclass of it gives `WampProtocolError`; any other exception escapes unchanged. Either way nothing is recorded. The registration and subscription maps are unchanged. After a successful send, REGISTER with options `{"invoke": policy}` (policy "single" by default) is in the sent log. `request_ids[request_id] == procedure_name` and every other entry is unchanged. |
| Clients.SubscribeToTopic | wampy/peers/clients.py:130-148 | An exception from the send that derives from `Exception` becomes `WampProtocolError`; one that derives from `BaseException` only (eventlet's `Timeout`, `KeyboardInterrupt`, `SystemExit`) escapes unchanged. Either way nothing is recorded. After a successful send, SUBSCRIBE is logged. `request_ids[request_id] == (message, handler name)` and every other entry is unchanged. |
| Clients.SendMessage | wampy/peers/clients.py:80-81 | A send that raises lets its exception escape and changes nothing. Otherwise the message is appended to the sent log and nothing else about the client changes. |
| Clients.RecvMessage | wampy/peers/clients.py:83-84 | The answer is the oldest queued frame, which is removed from the queue; an empty queue gives no answer (the source blocks). Nothing but the queue changes. |
| Clients.SendAndWait | wampy/peers/clients.py:86-88 | The message is sent first. The answer is the oldest queued frame, which is removed from the queue. An empty queue gives no answer (the source blocks). If the send raises, the exception escapes. Only the sent log and the queue change: handler, roles, realm, request ids and every other session table stay as they were. |
| Clients.CallThenResult | wampy/peers/clients.py:80-92 | A request sent by a client with nothing queued, then the RESULT answering it processed: the next receive returns exactly that frame, leaves the queue empty, and the handler and sent log are as the send left them. |
| Clients.ProcessMessage | wampy/peers/clients.py:90-92 | Without the log line's lookup: the frame goes through the client's corrected handler. A handler error is exactly the client's error. On success the client's session is the handler's resulting session and nothing else changes. Success implies the handler handles the frame's code. `process` runs against this client's own request ids and session, so a supplied handler is taken to have been built with this client (see "## Left out"). |
| Clients.ProcessMessageAsWritten | wampy/peers/clients.py:90-92 | As written: the log line looks the leading code up in the message-type table before the handler runs. An empty frame is `IndexError`, a list or dict code is `TypeError`, and a code without a name is `KeyError(code)`, whatever the handler is configured for. A named code behaves as `Clients.ProcessMessage`. |
| Clients.CustomCodeBlockedAsWritten | wampy/peers/clients.py:91 | A handler configured with an application class for code 999: as written `[999]` is `KeyError(999)`; corrected, that class's `process` runs once on the frame. |
| Clients.DefaultClientOn999 | wampy/peers/clients.py:91 | With the default table, `[999]` is `KeyError(999)` as written and `WampyError` naming the code once corrected. |
| Clients.ResultIsReceived | wampy/messages/result.py:43-45 | A RESULT frame processed by a client with nothing queued is exactly what the next send-and-wait returns. Afterwards the queue is empty, the request is in the sent log, and the registration map is unchanged. |
| Clients.RegisterThenRegistered | wampy/peers/clients.py:156-167 | REGISTER for a procedure, then a REGISTERED carrying the same request id: the registration map binds the registration id to that procedure name. |
| Clients.NoCrossWiring | wampy/peers/clients.py:156-167 | Two REGISTERs with different request ids are outstanding. The REGISTERED for the first binds the first procedure, not the later one. |
| Clients.RegisteredForSubscription | wampy/messages/registered.py:23-27 | A REGISTERED carrying a SUBSCRIBE's request id puts that subscription's entry into the registration map. Nothing checks the kind of request. |
| Clients.FailedRegisterRecordsNothing | wampy/peers/clients.py:160-167 | After a REGISTER whose send raised, a REGISTERED for its request id is a `KeyError`. |
| Bases.HandleMessage | wampy/peers/bases.py:188-244 | REGISTERED needs 3 elements and a recorded request id. It binds `registration_map[registration_id]` to `request_map[request_id]` and leaves everything else alone. INVOCATION needs 4 elements. It resolves the procedure through `registration_map` and calls it. It then hands YIELD with the same request id and `[resp]` to `_send`; an exception from that send escapes. GOODBYE needs reason `wamp.close.normal` and changes nothing. RESULT needs 4 elements and a non-empty argument list, and queues the frame unchanged. WELCOME sets the session id to `message[1]`. Any other code changes nothing. Every failure case names its exception. |
| Bases.RegisteredThenInvoked | wampy/peers/bases.py:193-216 | REGISTERED followed by an INVOCATION of that registration runs the procedure recorded for the REGISTER. It answers the invocation's request id with the procedure's return value. |
| Bases.RegisterEntrypoints | wampy/peers/bases.py:157-186 | Entrypoints are processed in order up to the first failure. Each is recorded in `request_map` as (class, name) before its REGISTER is sent. The failing one is recorded, and its REGISTER is sent only if the failure was a timeout. A raising send passes its exception on; a missed acknowledgement is `Timeout`. Each acknowledged entrypoint's REGISTERED binds its registration id to (class, name) in `registration_map`, in order, and nothing else writes that map. `client_registry[name]` is set only when every entrypoint succeeded. |
| Bases.RegisteredWhenWaitEnds | wampy/peers/bases.py:177-181 | When the wait for an acknowledged entrypoint ends, its (class, name) is among the values of `registration_map`, which is the condition the wait polls. |
| Bases.EveryEntrypointRegistered | wampy/peers/bases.py:157-183 | After a full run whose REGISTERED messages carried distinct registration ids, every entrypoint is bound under its own registration id, so every (class, name) is among the values of `registration_map`. |
| Bases.EntrypointRecorded | wampy/peers/bases.py:160-173 | After a full run, an entrypoint whose request id is not reused later maps to (class, its name) in `request_map`. |
| Bases.FailedSendStillRecorded | wampy/peers/bases.py:172-175 | When the first failure is a raising send, that entrypoint's request id is already in `request_map`, yet its REGISTER was never sent. |
| Tables.Assign | wampy/messages/handlers/default.py:53-56 | Assigning `m[k] = v` for each pair in order: the keys are the old keys plus the listed ones, unlisted keys keep their values, and every value is either a listed pair's or the old one. The same shape is `request_map[request_id] = ...` at wampy/peers/bases.py:172-173. |
| Routers.New | wampy/peers/routers.py:18-59 | `realm` is the first realm of the first worker and `roles` is its `roles`. More than one transport is `WampyError`, checked before anything about the transport is read. A transport without a url, or with a null one, is `WampyError`. An accepted config has exactly one transport with a non-null url. The IP version is the endpoint's `version`, or 4 when absent or null. Host, port and resource come from the parsed url. |
| Routers.ValidConfigAccepted | wampy/peers/routers.py:27-50 | One worker, one realm with roles, and one transport with a url and an endpoint: the config is accepted. The version is kept when present and becomes 4 otherwise. |
| Routers.CanUseTls | wampy/peers/routers.py:61-63 | TLS is usable iff a certificate was given: never with none, and with a path iff the path is non-empty. |
| Routers.TryConnection | wampy/peers/routers.py:129-152 | An IP version other than 4 or 6 is `WampyError` before any socket is made. Version 4 probes the router's host over IPv4 and version 6 probes `::` over IPv6, both on the router's port. An unreachable router gives a socket error. |

## Where the code and the intended protocol behaviour differ

The model follows the code in every case below except the first, where both
the code as written and the corrected behaviour are modelled.

- Unknown codes: `handle_message` builds its error message with
  `MESSAGE_TYPE_MAP[wamp_code]`, which fails for codes that table lacks.
  `Client.process_message` logs through that table before it calls the
  handler, so the same failure happens there first (see Findings). The
  as-written members `Handlers.HandleMessageAsWritten` and
  `Clients.ProcessMessageAsWritten` keep both lookups. The corrected
  `Handlers.HandleMessage` and `Clients.ProcessMessage` leave them out, and
  the lemmas about clients use the corrected ones.
- Orphan responses: a REGISTERED whose request id was never recorded is a
  `KeyError` in `Registered.process`. It is not logged and dropped.
- Response kinds: REGISTERED does not check whether its request id belongs to
  a REGISTER (`Clients.RegisteredForSubscription`).
- `ClientBase`: INVOCATION requires exactly four elements, and RESULT requires
  exactly four elements with a non-empty argument list. Frames of the other
  lengths the protocol allows end the listener with `ValueError`. An
  exception raised by a procedure also escapes and ends the listener; it is
  not turned into an ERROR reply.
- `Client` roles fall back to the defaults for any falsy value (`roles or
  DEFAULT_ROLES`), not only for `None`.
- Zero transports in a router config give `IndexError`, not `WampyError`. The
  `> 1` check lets an empty list through.

## Left out

- Eventlet green threads, `monkey_patch`, the listener loop, the capacity-1
  queue's blocking and the busy wait in `_wait_for_message` (concurrency and
  scheduling). The queue is a sequence, and a receive on an empty queue
  returns no answer.
- The 5-second wait in `_register_entrypoints` and both `_wait_until_ready`
  loops, because they depend on the wall clock. The wait's outcome is an input
  per entrypoint (`Bases.Step`).
- `_connect_to_router`, `_say_hello_to_router`, `_send`'s serialisation,
  sockets, `WampConnection`, `TCPConnection`, `Crossbar.start`/`stop`,
  subprocesses and `os.killpg` (I/O and OS process control).
- JSON file loading and `ParseUrlMixin.parse_url` (I/O and an unseen
  library). The parsed config and the host/port/resource are inputs.
- `_register_roles` and the `__dict__` scan in `_register_entrypoints`
  (reflection). Entrypoint names are an input list, and procedures are a
  name -> outcome map instead of `getattr`.
- Logging, `CallProxy`, `RpcProxy`, `PublishProxy`, `session_builder`,
  `begin_session`/`end_session`/`start`/`stop`. These are wrappers or are not
  part of this model. A fresh client's session is taken to start empty.
- The Welcome, Goodbye, Invocation, Yield, Error, Subscribed, Event, Register
  and Subscribe classes (wampy/messages/ apart from result.py and
  registered.py) are not part of this model. The handler assumes the other
  inbound classes construct without error and records their `process` calls
  in `Session.delegated`. Request ids generated by Register and Subscribe are
  inputs. The default REGISTER options of `_register_entrypoints` are an
  empty dict.
- Clients.OnlyRegisteredChangesRegistrationMap: every class other than
  `Result` and `Registered`, an application's own class included, is taken to
  have a `process` that touches nothing but the delegated log. In the source
  `process` receives the whole client
  (wampy/messages/handlers/default.py:73) and may write
  `client.session.registration_map`; such writes are not represented.
- Clients.ProcessMessage: a supplied handler is assumed to have been built
  with (or re-pointed to) this client. In the source every `process` runs
  against the handler's own `client` (wampy/messages/handlers/default.py:23
  and 73), and only the default handler is built with the new client
  (wampy/peers/clients.py:41). The model has a single client, so a handler
  built for another client, which would look the request id up in that
  client's `request_ids`, is not represented. The corrected half of the
  clients.py:91 finding rests on the same assumption, since only a supplied
  handler can be configured for code 999.
- Bases.RegisterEntrypoints: the listener's concurrent writes are reduced to
  one binding per acknowledged entrypoint, made during its wait. A wait that
  ends at once because the same (class, name) was already bound by an earlier
  run, and a REGISTERED that arrives after its wait timed out, are not
  modelled.
- `MESSAGE_TYPE_MAP` (wampy/messages/__init__.py) is not part of this model.
  It is taken to be the draft's code -> name table.
- The `Message.*` constants that `_handle_message` compares against are not
  part of this model either. They are taken to be the draft's codes, so
  REGISTERED is 65, although the comment at wampy/peers/bases.py:193 says
  "64".
- `Session.subscriptionMap` is never written: SUBSCRIBED's `process`, which
  fills it, is not part of this model. `Clients.SubscriptionMap` only reads it.
- Exception classes: beyond the named ones, an exception is described only by
  where it sits in the hierarchy (`Python.ExcKind`). `WampyError`,
  `WampProtocolError` and socket errors are taken to derive from `Exception`
  but not from `ValueError`.
- Python's numeric equality across types (`True == 1`, `50.0 == 50`) is left
  out, and so are floats: a frame led by `50.0`, which Python dispatches to
  `Result`, or one with a float payload cannot be written as a `Value`. The
  `TypeError` an unhashable value raises as a dict key is left out too, except
  for the leading code in `handle_message`.
- test/test_transports.py: an end-to-end test against a live router over real
  sockets.

## Findings

| source | as written | input that shows it | evidently intended | confidence | as-written member | corrected member |
|---|---|---|---|---|---|---|
| wampy/peers/clients.py:91 | `process_message` logs `MESSAGE_TYPE_MAP[message[0]]` before it calls the handler, so a code outside that table raises `KeyError` before the handler runs | frame `[999]` to a client whose handler is configured with an application class for code 999 | the handler runs that class's `process` | medium (depends on `MESSAGE_TYPE_MAP` lacking 999); not executed | Clients.ProcessMessageAsWritten | Clients.ProcessMessage |
| wampy/messages/handlers/default.py:60-64 | The "no handler" error is formatted with `MESSAGE_TYPE_MAP[wamp_code]`, so a code outside that table raises `KeyError` first | frame `[999]` with the default handler | `WampyError` naming the unhandled code | medium (depends on `MESSAGE_TYPE_MAP` lacking 999); not executed | Handlers.HandleMessageAsWritten | Handlers.HandleMessage |

=== FILE: bases.dfy ===
/**
 `ClientBase`: the older peer whose listener handles WELCOME, REGISTERED,
 INVOCATION, RESULT and GOODBYE itself, keeping its registrations in a
 registry shared by every peer of the process. The registry is passed in
 and out explicitly; a peer's procedures are a name -> outcome table.
 */
module Bases {
  import opened Python
  import opened MessageTypes
  import opened Sessions
  import Tables

  /** The reason a GOODBYE must carry. */
  const NORMAL_CLOSE := "wamp.close.normal"

  /** `(app class, function name)` as the registry stores it. */
  datatype Entrypoint = Entrypoint(app: string, funcName: string)

  /** A peer instance, as `client_registry` refers to it. */
  datatype PeerRef = PeerRef(name: string, app: string)

  /** The process-wide `Registry`. */
  datatype Registry = Registry(
    requestMap: map<Value, Entrypoint>,
    registrationMap: map<Value, Entrypoint>,
    clientRegistry: map<string, PeerRef>
  )

  datatype Peer = Peer(
    name: string,
    app: string,
    procedures: map<string, Result<Value>>,   // what calling each zero-argument procedure returns or raises
    sessionId: Option<Value>,                 // set once WELCOME has been handled
    queue: seq<Frame>,                        // RESULT frames handed to the waiting caller, oldest first
    sent: seq<Outgoing>
  )

  datatype State = State(registry: Registry, peer: Peer)

  /** `_handle_message`: the listener's reaction to one frame. Every exception
      it raises ends the listener. `yieldSendRaises` is what `_send` raises
      when an INVOCATION's YIELD is handed to it (`None` when it goes out). */
  function HandleMessage(st: State, message: Frame, yieldSendRaises: Option<Exc>): (r: Result<State>)
    ensures |message| == 0 ==> r == Err(IndexError)
    // REGISTERED: bind the registration id to the entrypoint recorded for the request id
    ensures |message| > 0 && message[0] == Int(REGISTERED) ==>
              && (|message| != 3 ==> r == Err(ValueError))
              && (|message| == 3 && message[1] !in st.registry.requestMap ==> r == Err(KeyError(message[1])))
              && (|message| == 3 && message[1] in st.registry.requestMap ==>
                    && r.Ok?
                    && r.value.peer == st.peer
                    && r.value.registry.requestMap == st.registry.requestMap
                    && r.value.registry.clientRegistry == st.registry.clientRegistry
                    && message[2] in r.value.registry.registrationMap
                    && r.value.registry.registrationMap[message[2]] == st.registry.requestMap[message[1]]
                    && forall id | id != message[2] ::
                         (id in r.value.registry.registrationMap <==> id in st.registry.registrationMap)
                         && (id in st.registry.registrationMap ==>
                               r.value.registry.registrationMap[id] == st.registry.registrationMap[id]))
    // INVOCATION: run the registered procedure and reply with YIELD carrying the same request id
    ensures |message| > 0 && message[0] == Int(INVOCATION) ==>
              && (|message| != 4 ==> r == Err(ValueError))
              && (|message| == 4 && message[2] !in st.registry.registrationMap ==> r == Err(KeyError(message[2])))
              && (|message| == 4 && message[2] in st.registry.registrationMap ==>
                    var name := st.registry.registrationMap[message[2]].funcName;
                    && (name !in st.peer.procedures ==> r == Err(AttributeError(name)))
                    && (name in st.peer.procedures && st.peer.procedures[name].Err? ==>
                          r == Err(st.peer.procedures[name].error))
                    && (name in st.peer.procedures && st.peer.procedures[name].Ok? && yieldSendRaises.Some? ==>
                          r == Err(yieldSendRaises.value))
                    && (name in st.peer.procedures && st.peer.procedures[name].Ok? && yieldSendRaises.None? ==>
                          && r.Ok?
                          && r.value.registry == st.registry
                          && r.value.peer.sent == st.peer.sent + [Yield(message[1], [st.peer.procedures[name].value])]
                          && r.value.peer == st.peer.(sent := r.value.peer.sent)))
    // GOODBYE: only the normal close reason is accepted; nothing changes
    ensures |message| > 0 && message[0] == Int(GOODBYE) ==>
              && (|message| != 3 ==> r == Err(ValueError))
              && (|message| == 3 && message[2] != Str(NORMAL_CLOSE) ==> r == Err(AssertionError))
              && (|message| == 3 && message[2] == Str(NORMAL_CLOSE) ==> r == Ok(st))
    // RESULT: exactly four elements with a non-empty argument list; the frame is queued unchanged
    ensures |message| > 0 && message[0] == Int(RESULT) ==>
              && (|message| != 4 ==> r == Err(ValueError))
              && (|message| == 4 && First(message[3]).Err? ==> r == Err(First(message[3]).error))
              && (|message| == 4 && First(message[3]).Ok? ==>
                    && r.Ok?
                    && r.value.registry == st.registry
                    && r.value.peer.queue == st.peer.queue + [message]
                    && r.value.peer == st.peer.(queue := r.value.peer.queue))
    // WELCOME: the session id is the frame's second element
    ensures |message| > 0 && message[0] == Int(WELCOME) ==>
              && (|message| != 3 ==> r == Err(ValueError))
              && (|message| == 3 ==> r == Ok(st.(peer := st.peer.(sessionId := Some(message[1])))))
    // anything else is only logged
    ensures |message| > 0 && message[0] !in {Int(REGISTERED), Int(INVOCATION), Int(GOODBYE), Int(RESULT), Int(WELCOME)}
            ==> r == Ok(st)
  {
    if |message| == 0 then Err(IndexError)
    else
      var code := message[0];
      var registry, peer := st.registry, st.peer;
      if code == Int(REGISTERED) then
        if |message| != 3 then Err(ValueError)
        else
          var requestId, registrationId := message[1], message[2];
          if requestId !in registry.requestMap then Err(KeyError(requestId))
          else
            var entry := registry.requestMap[requestId];
            Ok(st.(registry := registry.(registrationMap := registry.registrationMap[registrationId := entry])))
      else if code == Int(INVOCATION) then
        if |message| != 4 then Err(ValueError)
        else
          var requestId, registrationId := message[1], message[2];
          if registrationId !in registry.registrationMap then Err(KeyError(registrationId))
          else
            var procedureName := registry.registrationMap[registrationId].funcName;
            if procedureName !in peer.procedures then Err(AttributeError(procedureName))
            else
              var resp :- peer.procedures[procedureName];
              if yieldSendRaises.Some? then Err(yieldSendRaises.value)
              else Ok(st.(peer := peer.(sent := peer.sent + [Yield(requestId, [resp])])))
      else if code == Int(GOODBYE) then
        if |message| != 3 then Err(ValueError)
        else if message[2] != Str(NORMAL_CLOSE) then Err(AssertionError)
        else Ok(st)
      else if code == Int(RESULT) then
        if |message| != 4 then Err(ValueError)
        else
          var response :- First(message[3]);
          Ok(st.(peer := peer.(queue := peer.queue + [message])))
      else if code == Int(WELCOME) then
        if |message| != 3 then Err(ValueError)
        else Ok(st.(peer := peer.(sessionId := Some(message[1]))))
      else Ok(st)
  }

  /** A REGISTERED followed by an INVOCATION of that registration runs the
      procedure the REGISTER was sent for and answers the invocation's request
      id with its return value. */
  lemma {:induction false} RegisteredThenInvoked(st: State, requestId: Value, registrationId: Value,
                                                 invocationId: Value, details: Value)
    requires requestId in st.registry.requestMap
    requires st.registry.requestMap[requestId].funcName in st.peer.procedures
    requires st.peer.procedures[st.registry.requestMap[requestId].funcName].Ok?
    ensures var st1 := HandleMessage(st, [Int(REGISTERED), requestId, registrationId], None).value;
            var st2 := HandleMessage(st1, [Int(INVOCATION), invocationId, registrationId, details], None);
            var proc := st.registry.requestMap[requestId].funcName;
            && st2.Ok?
            && st2.value.peer.sent == st.peer.sent + [Yield(invocationId, [st.peer.procedures[proc].value])]
  {
    var frame1 := [Int(REGISTERED), requestId, registrationId];
    var frame2 := [Int(INVOCATION), invocationId, registrationId, details];
    assert frame1[0] == Int(REGISTERED) && |frame1| == 3;
    var st1 := HandleMessage(st, frame1, None).value;
    assert st1.registry.registrationMap[registrationId] == st.registry.requestMap[requestId];
    assert frame2[0] == Int(INVOCATION) && |frame2| == 4 && frame2[2] == registrationId;
  }

  /** How an entrypoint's registration attempt ends. */
  datatype Step =
    | Acknowledged(registrationId: Value)  // sent, and the listener handled its REGISTERED within the wait
    | SendRaises(e: Exc)                   // `_send` raised
    | TimesOut                             // sent, but no REGISTERED within the wait

  /** The position of the first registration attempt that did not succeed. */
  function FirstFailure(steps: seq<Step>): (k: nat)
    ensures k <= |steps|
    ensures forall i | 0 <= i < k :: steps[i].Acknowledged?
    ensures k < |steps| ==> !steps[k].Acknowledged?
  {
    if |steps| == 0 then 0
    else if !steps[0].Acknowledged? then 0
    else 1 + FirstFailure(steps[1..])
  }

  /** The `request_map` assignments, one per entrypoint. */
  function EntryPairs(app: string, entrypoints: seq<string>, requestIds: seq<Value>): (pairs: seq<(Value, Entrypoint)>)
    requires |requestIds| == |entrypoints|
    ensures |pairs| == |entrypoints|
    ensures forall i | 0 <= i < |pairs| :: pairs[i] == (requestIds[i], Entrypoint(app, entrypoints[i]))
  {
    seq(|entrypoints|, i requires 0 <= i < |entrypoints| => (requestIds[i], Entrypoint(app, entrypoints[i])))
  }

  /** The REGISTER messages, one per entrypoint. */
  function RegisterMessages(entrypoints: seq<string>, requestIds: seq<Value>): (ms: seq<Outgoing>)
    requires |requestIds| == |entrypoints|
    ensures |ms| == |entrypoints|
    ensures forall i | 0 <= i < |ms| :: ms[i] == Register(requestIds[i], Dict(map[]), entrypoints[i])
  {
    seq(|entrypoints|, i requires 0 <= i < |entrypoints| => Register(requestIds[i], Dict(map[]), entrypoints[i]))
  }

  /** The `registration_map` writes the listener makes while a run waits: one
      per acknowledged entrypoint, binding the REGISTERED's registration id to
      the (class, name) recorded for its request id. */
  function AckPairs(app: string, entrypoints: seq<string>, steps: seq<Step>): (pairs: seq<(Value, Entrypoint)>)
    requires |steps| == |entrypoints|
    ensures |pairs| == FirstFailure(steps)
    ensures forall i | 0 <= i < |pairs| :: pairs[i] == (steps[i].registrationId, Entrypoint(app, entrypoints[i]))
  {
    var k := FirstFailure(steps);
    seq(k, i requires 0 <= i < k => (steps[i].registrationId, Entrypoint(app, entrypoints[i])))
  }

  /** How many entrypoints a run records in `request_map`: the failing one is
      recorded before its send. */
  function Recorded(steps: seq<Step>): nat {
    var stop := FirstFailure(steps);
    if stop < |steps| then stop + 1 else stop
  }

  /** How many REGISTER messages a run hands to the transport. */
  function SentCount(steps: seq<Step>): nat {
    var stop := FirstFailure(steps);
    if stop < |steps| && steps[stop].SendRaises? then stop else Recorded(steps)
  }

  /** Where a run stops once position `i`, reached without an earlier
      failure, is not acknowledged. */
  lemma StopsAt(steps: seq<Step>, i: nat)
    requires i <= FirstFailure(steps) && i < |steps| && !steps[i].Acknowledged?
    ensures FirstFailure(steps) == i && Recorded(steps) == i + 1
    ensures SentCount(steps) == if steps[i].SendRaises? then i else i + 1
  {
  }

  /** `_register_entrypoints`: for each entrypoint in turn, record its request
      id in `request_map`, then send its REGISTER, then wait until the
      listener has handled the REGISTERED that binds its (class, name) in
      `registration_map`. The first failure stops the loop, with that
      entrypoint already recorded; the peer enters `client_registry` only
      after every entrypoint succeeded. */
  method RegisterEntrypoints(reg: Registry, peer: Peer, entrypoints: seq<string>, requestIds: seq<Value>, steps: seq<Step>)
    returns (reg': Registry, peer': Peer, failure: Option<Exc>)
    requires |requestIds| == |entrypoints| == |steps|
    ensures reg'.requestMap == Tables.Assign(reg.requestMap, EntryPairs(peer.app, entrypoints, requestIds)[..Recorded(steps)])
    ensures peer'.sent == peer.sent + RegisterMessages(entrypoints, requestIds)[..SentCount(steps)]
    ensures failure.None? <==> FirstFailure(steps) == |steps|
    ensures failure.Some? && steps[FirstFailure(steps)].SendRaises? ==> failure == Some(steps[FirstFailure(steps)].e)
    ensures failure.Some? && steps[FirstFailure(steps)].TimesOut? ==> failure == Some(Timeout)
    ensures failure.None? ==> reg'.clientRegistry == reg.clientRegistry[peer.name := PeerRef(peer.name, peer.app)]
    ensures failure.Some? ==> reg'.clientRegistry == reg.clientRegistry
    ensures reg'.registrationMap == Tables.Assign(reg.registrationMap, AckPairs(peer.app, entrypoints, steps))
    ensures peer' == peer.(sent := peer'.sent)
  {
    var pairs := EntryPairs(peer.app, entrypoints, requestIds);
    var registers := RegisterMessages(entrypoints, requestIds);
    ghost var stop := FirstFailure(steps);
    ghost var acks := AckPairs(peer.app, entrypoints, steps);
    reg', peer', failure := reg, peer, None;
    var i := 0;
    while i < |entrypoints|
      invariant 0 <= i <= stop
      invariant reg'.requestMap == Tables.Assign(reg.requestMap, pairs[..i])
      invariant peer'.sent == peer.sent + registers[..i]
      invariant reg'.registrationMap == Tables.Assign(reg.registrationMap, acks[..i])
      invariant reg' == reg.(requestMap := reg'.requestMap, registrationMap := reg'.registrationMap)
      invariant peer' == peer.(sent := peer'.sent)
    {
      Tables.AssignSnoc(reg.requestMap, pairs[..i], pairs[i]);
      assert pairs[..i + 1] == pairs[..i] + [pairs[i]];
      reg' := reg'.(requestMap := reg'.requestMap[requestIds[i] := Entrypoint(peer.app, entrypoints[i])]);
      if steps[i].SendRaises? {
        StopsAt(steps, i);
        assert pairs[..Recorded(steps)] == pairs[..i + 1] && registers[..SentCount(steps)] == registers[..i];
        assert acks[..i] == acks;
        failure := Some(steps[i].e);
        return;
      }
      assert registers[..i + 1] == registers[..i] + [registers[i]];
      peer' := peer'.(sent := peer'.sent + [Register(requestIds[i], Dict(map[]), entrypoints[i])]);
      if steps[i].TimesOut? {
        StopsAt(steps, i);
        assert pairs[..Recorded(steps)] == pairs[..i + 1] && registers[..SentCount(steps)] == registers[..i + 1];
        assert acks[..i] == acks;
        failure := Some(Timeout);
        return;
      }
      assert i < stop;
      Tables.AssignSnoc(reg.registrationMap, acks[..i], acks[i]);
      assert acks[..i + 1] == acks[..i] + [acks[i]];
      reg' := reg'.(registrationMap := reg'.registrationMap[steps[i].registrationId := Entrypoint(peer.app, entrypoints[i])]);
      i := i + 1;
    }
    assert pairs[..i] == pairs[..Recorded(steps)] && registers[..i] == registers[..SentCount(steps)];
    assert acks[..i] == acks;
    reg' := reg'.(clientRegistry := reg'.clientRegistry[peer.name := PeerRef(peer.name, peer.app)]);
  }

  /** After a full registration run, each entrypoint whose request id is not
      reused later in the run is what `request_map` holds for that id. */
  lemma {:induction false} EntrypointRecorded(reg: Registry, app: string, entrypoints: seq<string>,
                                              requestIds: seq<Value>, i: int)
    requires |requestIds| == |entrypoints|
    requires 0 <= i < |entrypoints|
    requires forall j | i < j < |requestIds| :: requestIds[j] != requestIds[i]
    ensures var pairs := EntryPairs(app, entrypoints, requestIds);
            var m := Tables.Assign(reg.requestMap, pairs);
            requestIds[i] in m && m[requestIds[i]] == Entrypoint(app, entrypoints[i])
  {
    var pairs := EntryPairs(app, entrypoints, requestIds);
    assert Tables.LastWrite(pairs, i) by {
      forall j | i < j < |pairs| ensures pairs[j].0 != pairs[i].0 {
        assert pairs[j].0 == requestIds[j];
      }
    }
    Tables.LastWriteWins(reg.requestMap, pairs, i);
  }

  /** The wait for an acknowledged entrypoint ends with its (class, name)
      among the values of `registration_map`, which is the condition the wait
      loop polls. */
  lemma RegisteredWhenWaitEnds(reg: Registry, app: string, entrypoints: seq<string>, steps: seq<Step>, i: int)
    requires |steps| == |entrypoints|
    requires 0 <= i < FirstFailure(steps)
    ensures var acks := AckPairs(app, entrypoints, steps);
            Entrypoint(app, entrypoints[i]) in Tables.Assign(reg.registrationMap, acks[..i + 1]).Values
  {
    var acks := AckPairs(app, entrypoints, steps);
    assert acks[..i + 1] == acks[..i] + [acks[i]];
    Tables.AssignSnoc(reg.registrationMap, acks[..i], acks[i]);
    var m := Tables.Assign(reg.registrationMap, acks[..i + 1]);
    assert m[acks[i].0] == Entrypoint(app, entrypoints[i]);
  }

  /** After a full run whose REGISTERED messages carried distinct registration
      ids, every entrypoint is bound in `registration_map`, each under the id
      its REGISTERED carried. */
  lemma {:induction false} EveryEntrypointRegistered(reg: Registry, app: string, entrypoints: seq<string>,
                                                     steps: seq<Step>, i: int)
    requires |steps| == |entrypoints| && FirstFailure(steps) == |steps|
    requires 0 <= i < |steps|
    requires forall j | i < j < |steps| :: steps[j].registrationId != steps[i].registrationId
    ensures var m := Tables.Assign(reg.registrationMap, AckPairs(app, entrypoints, steps));
            && steps[i].registrationId in m
            && m[steps[i].registrationId] == Entrypoint(app, entrypoints[i])
            && Entrypoint(app, entrypoints[i]) in m.Values
  {
    var acks := AckPairs(app, entrypoints, steps);
    assert Tables.LastWrite(acks, i) by {
      forall j | i < j < |acks| ensures acks[j].0 != acks[i].0 {
        assert acks[j].0 == steps[j].registrationId;
      }
    }
    Tables.LastWriteWins(reg.registrationMap, acks, i);
  }

  /** A run whose first failure is a raising send still leaves that
      entrypoint's request id in `request_map`, although its REGISTER never
      went out: the record is made before the send. */
  lemma {:induction false} FailedSendStillRecorded(reg: Registry, app: string, entrypoints: seq<string>,
                                                   requestIds: seq<Value>, steps: seq<Step>)
    requires |requestIds| == |entrypoints| == |steps|
    requires FirstFailure(steps) < |steps| && steps[FirstFailure(steps)].SendRaises?
    ensures var k := FirstFailure(steps);
            && SentCount(steps) == k
            && requestIds[k] in Tables.Assign(reg.requestMap, EntryPairs(app, entrypoints, requestIds)[..Recorded(steps)])
  {
    var k := FirstFailure(steps);
    var pairs := EntryPairs(app, entrypoints, requestIds)[..k + 1];
    assert pairs[k].0 == requestIds[k];
    assert requestIds[k] in Tables.Keys(pairs);
  }
}

=== FILE: clients.dfy ===
/**
 `Client`: construction defaults, the request bookkeeping of REGISTER and
 SUBSCRIBE, send-then-receive, and the hand-off of inbound frames to the
 message handler. Whether the transport's send raises is an input; the
 session's send appends to its outbound log and its receive takes the oldest
 queued frame.
 */
module Clients {
  import opened Python
  import opened MessageTypes
  import opened Sessions
  import Handlers

  /** Anything a client can be built against: only its realm is read. */
  datatype Router = Router(realm: Value)

  datatype Client = Client(
    roles: Value,
    realm: Value,
    handler: Handlers.MessageHandler,
    session: Session,
    requestIds: map<Value, RequestEntry>
  )

  const DEFAULT_INVOCATION_POLICY := "single"

  /** `Client.DEFAULT_ROLES`: subscriber, publisher, callee with shared
      registration, and caller. */
  function DefaultRoles(): (roles: Value)
    ensures roles.Dict? && roles.entries.Keys == {"roles"}
    ensures var declared := roles.entries["roles"];
            && declared.Dict?
            && declared.entries.Keys == {"subscriber", "publisher", "callee", "caller"}
            && declared.entries["callee"] == Dict(map["shared_registration" := Bool(true)])
            && declared.entries["subscriber"] == declared.entries["publisher"] == declared.entries["caller"] == Dict(map[])
  {
    Dict(map["roles" := Dict(map[
      "subscriber" := Dict(map[]),
      "publisher" := Dict(map[]),
      "callee" := Dict(map["shared_registration" := Bool(true)]),
      "caller" := Dict(map[])
    ])])
  }

  /** `Client(router, roles, message_handler)`: roles fall back to the defaults
      whenever the given roles are falsy (absent, null or empty), the realm is
      always the router's, and nothing has been requested yet. */
  function New(router: Router, roles: Option<Value>, messageHandler: Option<Handlers.MessageHandler>): (c: Client)
    ensures roles.None? ==> c.roles == DefaultRoles()
    ensures roles.Some? && !Truthy(roles.value) ==> c.roles == DefaultRoles()
    ensures roles.Some? && Truthy(roles.value) ==> c.roles == roles.value
    ensures c.realm == router.realm
    ensures messageHandler.Some? ==> c.handler == messageHandler.value
    ensures messageHandler.None? ==> c.handler == Handlers.New(None)
    ensures messageHandler.None? ==> c.handler.messagesToHandle == Handlers.DefaultMessages
    ensures c.requestIds == map[] && c.session == EmptySession()
  {
    var chosenRoles := if roles.Some? && Truthy(roles.value) then roles.value else DefaultRoles();
    var handler := if messageHandler.Some? then messageHandler.value else Handlers.New(None);
    Client(chosenRoles, router.realm, handler, EmptySession(), map[])
  }

  /** The `registration_map` property reads through to the session's table. */
  function RegistrationMap(c: Client): (m: map<Value, RequestEntry>)
    ensures m == c.session.registrationMap
  {
    c.session.registrationMap
  }

  /** The `subscription_map` property reads through to the session's table. */
  function SubscriptionMap(c: Client): (m: map<Value, Value>)
    ensures m == c.session.subscriptionMap
  {
    c.session.subscriptionMap
  }

  /** `session.send_message`, once the transport accepted the message. */
  function Sent(c: Client, message: Outgoing): Client {
    c.(session := c.session.(sent := c.session.sent + [message]))
  }

  /** `_register_procedure(procedure_name, invocation_policy)`: sends REGISTER
      with options `{"invoke": policy}` ("single" when not given) and, only once
      the send went through, records the request id against the procedure
      name. A `ValueError` (or a subclass of it) from the send becomes
      `WampProtocolError`; any other exception escapes unchanged. */
  function RegisterProcedure(c: Client, procedureName: string, invocationPolicy: Option<string>,
                             requestId: Value, sendRaises: Option<Exc>): (r: Result<Client>)
    ensures sendRaises.Some? && IsValueError(sendRaises.value) ==> r == Err(WampProtocolError(procedureName))
    ensures sendRaises.Some? && !IsValueError(sendRaises.value) ==> r == Err(sendRaises.value)
    ensures sendRaises.None? <==> r.Ok?
    ensures r.Ok? ==> RegistrationMap(r.value) == RegistrationMap(c) && SubscriptionMap(r.value) == SubscriptionMap(c)
    ensures r.Ok? ==> var policy := if invocationPolicy.Some? then invocationPolicy.value else DEFAULT_INVOCATION_POLICY;
                      r.value.session.sent
                      == c.session.sent + [Register(requestId, Dict(map["invoke" := Str(policy)]), procedureName)]
    ensures r.Ok? ==> requestId in r.value.requestIds && r.value.requestIds[requestId] == ProcedureName(procedureName)
    ensures r.Ok? ==> forall id | id != requestId ::
                        (id in r.value.requestIds <==> id in c.requestIds)
                        && (id in c.requestIds ==> r.value.requestIds[id] == c.requestIds[id])
    ensures r.Ok? ==> r.value.session == c.session.(sent := r.value.session.sent)
                      && r.value == c.(session := r.value.session, requestIds := r.value.requestIds)
  {
    var policy := if invocationPolicy.Some? then invocationPolicy.value else DEFAULT_INVOCATION_POLICY;
    var message := Register(requestId, Dict(map["invoke" := Str(policy)]), procedureName);
    match sendRaises
    case Some(e) => if IsValueError(e) then Err(WampProtocolError(procedureName)) else Err(e)
    case None =>
      var c' := Sent(c, message);
      Ok(c'.(requestIds := c'.requestIds[requestId := ProcedureName(procedureName)]))
  }

  /** `_subscribe_to_topic(topic, handler)`: sends SUBSCRIBE and, only once the
      send went through, records the request id against the message and the
      handler's name. An exception from the send that `except Exception`
      catches becomes `WampProtocolError`; one that derives from
      `BaseException` only (eventlet's `Timeout`, `KeyboardInterrupt`,
      `SystemExit`) escapes unchanged. */
  function SubscribeToTopic(c: Client, topic: string, handlerName: string,
                            requestId: Value, sendRaises: Option<Exc>): (r: Result<Client>)
    ensures sendRaises.Some? && IsException(sendRaises.value) ==> r == Err(WampProtocolError(topic))
    ensures sendRaises.Some? && !IsException(sendRaises.value) ==> r == Err(sendRaises.value)
    ensures sendRaises.None? <==> r.Ok?
    ensures r.Ok? ==> r.value.session.sent == c.session.sent + [Subscribe(requestId, topic)]
    ensures r.Ok? ==> requestId in r.value.requestIds
                      && r.value.requestIds[requestId] == TopicSubscription(Subscribe(requestId, topic), handlerName)
    ensures r.Ok? ==> forall id | id != requestId ::
                        (id in r.value.requestIds <==> id in c.requestIds)
                        && (id in c.requestIds ==> r.value.requestIds[id] == c.requestIds[id])
    ensures r.Ok? ==> r.value == c.(session := c.session.(sent := r.value.session.sent), requestIds := r.value.requestIds)
  {
    var message := Subscribe(requestId, topic);
    if sendRaises.Some? then
      if IsException(sendRaises.value) then Err(WampProtocolError(topic)) else Err(sendRaises.value)
    else
      var c' := Sent(c, message);
      Ok(c'.(requestIds := c'.requestIds[requestId := TopicSubscription(message, handlerName)]))
  }

  /** `send_message`: the message joins the outbound log unless the transport
      raises, in which case the exception escapes and nothing changes. */
  function SendMessage(c: Client, message: Outgoing, sendRaises: Option<Exc>): (r: Result<Client>)
    ensures sendRaises.Some? ==> r == Err(sendRaises.value)
    ensures sendRaises.None? <==> r.Ok?
    ensures r.Ok? ==> r.value.session.sent == c.session.sent + [message]
    ensures r.Ok? ==> r.value == c.(session := c.session.(sent := r.value.session.sent))
  {
    if sendRaises.Some? then Err(sendRaises.value) else Ok(Sent(c, message))
  }

  /** `recv_message`: the oldest queued frame, taken off the queue, or `None`
      while the queue is empty (the source blocks there). Nothing but the
      queue changes. */
  function RecvMessage(c: Client): (r: (Client, Option<Frame>))
    ensures |c.session.queue| > 0 ==>
              r.1 == Some(c.session.queue[0]) && [c.session.queue[0]] + r.0.session.queue == c.session.queue
    ensures |c.session.queue| == 0 ==> r.1 == None && r.0.session.queue == []
    ensures r.0 == c.(session := c.session.(queue := r.0.session.queue))
  {
    var queue := c.session.queue;
    if |queue| == 0 then (c, None)
    else (c.(session := c.session.(queue := queue[1..])), Some(queue[0]))
  }

  /** `send_message_and_wait_for_response`: send, then receive. An exception
      from the send escapes and nothing is received. */
  function SendAndWait(c: Client, message: Outgoing, sendRaises: Option<Exc>): (r: Result<(Client, Option<Frame>)>)
    ensures sendRaises.Some? ==> r == Err(sendRaises.value)
    ensures sendRaises.None? ==> r.Ok?
    ensures r.Ok? ==> r.value.0.session.sent == c.session.sent + [message]
    ensures r.Ok? && |c.session.queue| > 0 ==>
              r.value.1 == Some(c.session.queue[0]) && [c.session.queue[0]] + r.value.0.session.queue == c.session.queue
    ensures r.Ok? && |c.session.queue| == 0 ==> r.value.1 == None && r.value.0.session.queue == []
    ensures r.Ok? ==> r.value.0 == c.(session := c.session.(sent := r.value.0.session.sent, queue := r.value.0.session.queue))
  {
    var sent :- SendMessage(c, message, sendRaises);
    Ok(RecvMessage(sent))
  }

  /** A request sent by a client with nothing queued, then the RESULT that
      answers it processed by the client: the next receive returns exactly
      that frame and leaves the queue empty again. */
  lemma CallThenResult(c: Client, request: Outgoing, frame: Frame)
    requires RESULT in c.handler.messages && c.handler.messages[RESULT] == ResultMsg
    requires c.session.queue == []
    requires 3 <= |frame| <= 5 && frame[0] == Int(RESULT)
    ensures var c1 := SendMessage(c, request, None).value;
            var c2 := ProcessMessage(c1, frame);
            && c2.Ok?
            && RecvMessage(c2.value).1 == Some(frame)
            && RecvMessage(c2.value).0.session.queue == []
            && RecvMessage(c2.value).0.session.sent == c.session.sent + [request]
            && RecvMessage(c2.value).0.handler == c.handler
  {
    var c1 := SendMessage(c, request, None).value;
    Handlers.HandleResultQueuesFrame(c1.handler, frame, c1.requestIds, c1.session);
  }

  /** `process_message` without its log line's type-name lookup: the frame goes
      through the client's (corrected) message handler, whose outcome becomes
      the client's session or the client's error. */
  function ProcessMessage(c: Client, message: Frame): (r: Result<Client>)
    ensures r.Ok? ==> |message| > 0 && Handlers.Handles(c.handler, message[0])
    ensures var handled := Handlers.HandleMessage(c.handler, message, c.requestIds, c.session);
            && (handled.Err? ==> r == Err(handled.error))
            && (handled.Ok? ==> r == Ok(c.(session := handled.value)))
  {
    var s :- Handlers.HandleMessage(c.handler, message, c.requestIds, c.session);
    Ok(c.(session := s))
  }

  /** Only a REGISTERED changes the registration table: any other frame the
      client processes leaves it as it was. */
  lemma OnlyRegisteredChangesRegistrationMap(c: Client, message: Frame)
    requires |message| > 0 && message[0] != Int(REGISTERED)
    requires ProcessMessage(c, message).Ok?
    ensures RegistrationMap(ProcessMessage(c, message).value) == RegistrationMap(c)
  {
  }

  /** `process_message` as written: the log line looks the leading code up in
      the message type table before the handler runs, and the handler is the
      as-written one. A code without a name raises `KeyError` there, even when
      the client's handler is configured for it. */
  function ProcessMessageAsWritten(c: Client, message: Frame): (r: Result<Client>)
    ensures |message| == 0 ==> r == Err(IndexError)
    ensures |message| > 0 && (message[0].List? || message[0].Dict?) ==> r == Err(TypeError)
    ensures |message| > 0 && !(message[0].List? || message[0].Dict?) && Handlers.TypeNameOf(message[0]).None?
            ==> r == Err(KeyError(message[0]))
    ensures |message| > 0 && Handlers.TypeNameOf(message[0]).Some? ==> r == ProcessMessage(c, message)
  {
    if |message| == 0 then Err(IndexError)
    else
      var code := message[0];
      if code.List? || code.Dict? then Err(TypeError)
      else if Handlers.TypeNameOf(code).None? then Err(KeyError(code))
      else
        Handlers.HandleMessageAgreesOnNamedCodes(c.handler, message, c.requestIds, c.session);
        var s :- Handlers.HandleMessageAsWritten(c.handler, message, c.requestIds, c.session);
        Ok(c.(session := s))
  }

  /** Frame `[999]`: as written `KeyError(999)` whatever the handler, so a
      client whose handler was configured with an application class for
      code 999 never reaches it; corrected, that class's `process` runs. */
  lemma CustomCodeBlockedAsWritten(c: Client, name: string)
    requires 999 in c.handler.messages && c.handler.messages[999] == CustomMsg(name, 999)
    ensures ProcessMessageAsWritten(c, [Int(999)]) == Err(KeyError(Int(999)))
    ensures var r := ProcessMessage(c, [Int(999)]);
            && r.Ok?
            && r.value.session.delegated == c.session.delegated + [(CustomMsg(name, 999), [Int(999)])]
  {
    assert 999 !in MessageTypeMap;
    Handlers.HandleOtherProcessesOnce(c.handler, [Int(999)], c.requestIds, c.session);
  }

  /** Frame `[999]` to a client with the default table (as `New` builds it
      when no handler is given, see `FreshClientHasDefaultTable`):
      `KeyError(999)` as written, `WampyError` naming the code once corrected. */
  lemma DefaultClientOn999(c: Client)
    requires c.handler.messages.Keys == {WELCOME, GOODBYE, REGISTERED, INVOCATION, YIELD, RESULT, ERROR, SUBSCRIBED, EVENT}
    ensures ProcessMessageAsWritten(c, [Int(999)]) == Err(KeyError(Int(999)))
    ensures ProcessMessage(c, [Int(999)]) == Err(WampyError(NoHandlerFor(Int(999), None)))
  {
    Handlers.DefaultTableOn999(c.handler, c.requestIds, c.session);
  }

  /** A client built without a handler dispatches exactly the nine default codes. */
  lemma FreshClientHasDefaultTable(router: Router, roles: Option<Value>)
    ensures New(router, roles, None).handler.messages.Keys
            == {WELCOME, GOODBYE, REGISTERED, INVOCATION, YIELD, RESULT, ERROR, SUBSCRIBED, EVENT}
  {
    Handlers.DefaultKeys();
  }

  /** A REGISTER that went out, answered by a REGISTERED with the same request
      id, binds the registration id to that procedure name. */
  lemma {:induction false} RegisterThenRegistered(c: Client, procedureName: string, invocationPolicy: Option<string>,
                                                  requestId: Value, registrationId: Value)
    requires REGISTERED in c.handler.messages && c.handler.messages[REGISTERED] == RegisteredMsg
    ensures var c1 := RegisterProcedure(c, procedureName, invocationPolicy, requestId, None).value;
            var c2 := ProcessMessage(c1, [Int(REGISTERED), requestId, registrationId]);
            && c2.Ok?
            && registrationId in RegistrationMap(c2.value)
            && RegistrationMap(c2.value)[registrationId] == ProcedureName(procedureName)
  {
    var c1 := RegisterProcedure(c, procedureName, invocationPolicy, requestId, None).value;
    var frame := [Int(REGISTERED), requestId, registrationId];
    Handlers.HandleRegisteredBinds(c1.handler, frame, c1.requestIds, c1.session);
  }

  /** A freshly built client with the default handler: a REGISTER that went
      out and its REGISTERED bind the registration id to the procedure name. */
  lemma FreshClientRegisters(router: Router, roles: Option<Value>, procedureName: string,
                             invocationPolicy: Option<string>, requestId: Value, registrationId: Value)
    ensures var c1 := RegisterProcedure(New(router, roles, None), procedureName, invocationPolicy, requestId, None).value;
            var c2 := ProcessMessage(c1, [Int(REGISTERED), requestId, registrationId]);
            && c2.Ok?
            && RegistrationMap(c2.value) == map[registrationId := ProcedureName(procedureName)]
  {
    var c := New(router, roles, None);
    Handlers.DefaultRoutesRegistered();
    RegisterThenRegistered(c, procedureName, invocationPolicy, requestId, registrationId);
    var c1 := RegisterProcedure(c, procedureName, invocationPolicy, requestId, None).value;
    Handlers.HandleRegisteredBinds(c1.handler, [Int(REGISTERED), requestId, registrationId], c1.requestIds, c1.session);
  }

  /** A RESULT frame processed by a client with nothing queued is exactly what
      its next send-and-wait returns, after which the queue is empty again. */
  lemma ResultIsReceived(c: Client, frame: Frame, request: Outgoing)
    requires RESULT in c.handler.messages && c.handler.messages[RESULT] == ResultMsg
    requires c.session.queue == []
    requires 3 <= |frame| <= 5 && frame[0] == Int(RESULT)
    ensures var c1 := ProcessMessage(c, frame);
            && c1.Ok?
            && var answer := SendAndWait(c1.value, request, None);
            && answer.Ok?
            && answer.value.1 == Some(frame)
            && answer.value.0.session.queue == []
            && answer.value.0.session.sent == c.session.sent + [request]
            && RegistrationMap(answer.value.0) == RegistrationMap(c)
  {
    Handlers.HandleResultQueuesFrame(c.handler, frame, c.requestIds, c.session);
  }

  /** Two outstanding REGISTERs with different request ids: the REGISTERED for
      the first binds the first procedure, whatever was requested after it. */
  lemma {:induction false} NoCrossWiring(c: Client, name1: string, name2: string, id1: Value, id2: Value,
                                         registrationId: Value)
    requires REGISTERED in c.handler.messages && c.handler.messages[REGISTERED] == RegisteredMsg
    requires id1 != id2
    ensures var c1 := RegisterProcedure(c, name1, None, id1, None).value;
            var c2 := RegisterProcedure(c1, name2, None, id2, None).value;
            var c3 := ProcessMessage(c2, [Int(REGISTERED), id1, registrationId]);
            && c3.Ok?
            && registrationId in RegistrationMap(c3.value)
            && RegistrationMap(c3.value)[registrationId] == ProcedureName(name1)
  {
    var c1 := RegisterProcedure(c, name1, None, id1, None).value;
    var c2 := RegisterProcedure(c1, name2, None, id2, None).value;
    assert c2.requestIds[id1] == ProcedureName(name1);
    Handlers.HandleRegisteredBinds(c2.handler, [Int(REGISTERED), id1, registrationId], c2.requestIds, c2.session);
  }

  /** REGISTERED does not check what kind of request its id belongs to: a
      REGISTERED carrying a SUBSCRIBE's request id puts the subscription
      entry into the registration table. */
  lemma {:induction false} RegisteredForSubscription(c: Client, topic: string, handlerName: string,
                                                     requestId: Value, registrationId: Value)
    requires REGISTERED in c.handler.messages && c.handler.messages[REGISTERED] == RegisteredMsg
    ensures var c1 := SubscribeToTopic(c, topic, handlerName, requestId, None).value;
            var c2 := ProcessMessage(c1, [Int(REGISTERED), requestId, registrationId]);
            && c2.Ok?
            && registrationId in RegistrationMap(c2.value)
            && RegistrationMap(c2.value)[registrationId] == TopicSubscription(Subscribe(requestId, topic), handlerName)
  {
    var c1 := SubscribeToTopic(c, topic, handlerName, requestId, None).value;
    Handlers.HandleRegisteredBinds(c1.handler, [Int(REGISTERED), requestId, registrationId], c1.requestIds, c1.session);
  }

  /** A failed REGISTER leaves no trace: a later REGISTERED for its id is a `KeyError`. */
  lemma {:induction false} FailedRegisterRecordsNothing(c: Client, procedureName: string, requestId: Value,
                                                       registrationId: Value, e: Exc)
    requires REGISTERED in c.handler.messages && c.handler.messages[REGISTERED] == RegisteredMsg
    requires requestId !in c.requestIds
    ensures RegisterProcedure(c, procedureName, None, requestId, Some(e)).Err?
    ensures ProcessMessage(c, [Int(REGISTERED), requestId, registrationId]) == Err(KeyError(requestId))
  {
    Handlers.HandleRegisteredBinds(c.handler, [Int(REGISTERED), requestId, registrationId], c.requestIds, c.session);
  }
}

=== FILE: handlers.dfy ===
/**
 `MessageHandler`: the allow-list of message classes a client processes, the
 code -> class table built from it, and dispatch of one inbound frame to the
 `process` of the class its leading code selects.
 */
module Handlers {
  import opened Python
  import opened MessageTypes
  import opened Sessions
  import Tables
  import ResultMessages
  import RegisteredMessages

  /** The classes handled when no allow-list is given. */
  const DefaultMessages: seq<MessageClass> := [
    WelcomeMsg, GoodbyeMsg, RegisteredMsg, InvocationMsg, YieldMsg, ResultMsg,
    ErrorMsg, SubscribedMsg, EventMsg
  ]

  datatype MessageHandler = MessageHandler(messagesToHandle: seq<MessageClass>, messages: map<int, MessageClass>)

  /** A constructed inbound message. Only RESULT and REGISTERED are modelled
      field by field; any other class keeps its class and its arguments. */
  datatype Message =
    | AResult(result: ResultMessages.ResultMessage)
    | ARegistered(registered: RegisteredMessages.RegisteredMessage)
    | Unmodelled(cls: MessageClass, args: Frame)

  /** The assignments `messages[cls.WAMP_CODE] = cls`, in allow-list order. */
  function CodePairs(classes: seq<MessageClass>): (pairs: seq<(int, MessageClass)>)
    ensures |pairs| == |classes|
    ensures forall i | 0 <= i < |classes| :: pairs[i] == (classes[i].WampCode(), classes[i])
  {
    seq(|classes|, i requires 0 <= i < |classes| => (classes[i].WampCode(), classes[i]))
  }

  /** `_configure_messages`: a table keyed by exactly the listed classes' codes,
      each key mapped to a listed class carrying that code. */
  function Configure(classes: seq<MessageClass>): (table: map<int, MessageClass>)
    ensures table.Keys == set c | c in classes :: c.WampCode()
    ensures forall code | code in table :: table[code] in classes && table[code].WampCode() == code
  {
    var pairs := CodePairs(classes);
    var table := Tables.Assign(map[], pairs);
    assert Tables.Keys(pairs) == set c | c in classes :: c.WampCode() by {
      forall code | code in Tables.Keys(pairs) ensures code in set c | c in classes :: c.WampCode() {
        var i :| 0 <= i < |pairs| && pairs[i].0 == code;
        assert classes[i] in classes;
      }
      forall code | code in set c | c in classes :: c.WampCode() ensures code in Tables.Keys(pairs) {
        var c :| c in classes && c.WampCode() == code;
        var i :| 0 <= i < |classes| && classes[i] == c;
        assert pairs[i].0 == code;
      }
    }
    assert forall code | code in table :: table[code] in classes && table[code].WampCode() == code by {
      forall code | code in table ensures table[code] in classes && table[code].WampCode() == code {
        assert (code, table[code]) in pairs;
        var i :| 0 <= i < |pairs| && pairs[i] == (code, table[code]);
        assert classes[i] == table[code];
      }
    }
    table
  }

  /** When two listed classes share a code, the one listed later is the one dispatched to. */
  lemma ConfigureLaterWins(classes: seq<MessageClass>, i: int)
    requires 0 <= i < |classes|
    requires forall j | i < j < |classes| :: classes[j].WampCode() != classes[i].WampCode()
    ensures Configure(classes)[classes[i].WampCode()] == classes[i]
  {
    var pairs := CodePairs(classes);
    assert Tables.LastWrite(pairs, i) by {
      forall j | i < j < |pairs| ensures pairs[j].0 != pairs[i].0 {
        assert pairs[j].0 == classes[j].WampCode();
      }
    }
    Tables.LastWriteWins(map[], pairs, i);
  }

  /** `MessageHandler(client, messages_to_handle)`: the default classes when no
      list is given, otherwise the caller's list exactly as given. */
  function New(messagesToHandle: Option<seq<MessageClass>>): (h: MessageHandler)
    ensures messagesToHandle.Some? ==> h.messagesToHandle == messagesToHandle.value
    ensures messagesToHandle.None? ==> h.messagesToHandle == DefaultMessages
    ensures h.messages.Keys == set c | c in h.messagesToHandle :: c.WampCode()
    ensures forall code | code in h.messages ::
              h.messages[code] in h.messagesToHandle && h.messages[code].WampCode() == code
  {
    var classes := if messagesToHandle.None? then DefaultMessages else messagesToHandle.value;
    MessageHandler(classes, Configure(classes))
  }

  /** The default handler dispatches exactly the nine built-in inbound codes,
      each to the class carrying that code. */
  lemma DefaultHandlerTable()
    ensures New(None).messages.Keys == {WELCOME, GOODBYE, REGISTERED, INVOCATION, YIELD, RESULT, ERROR, SUBSCRIBED, EVENT}
    ensures New(None).messages[RESULT] == ResultMsg
    ensures New(None).messages[REGISTERED] == RegisteredMsg
  {
    DefaultKeys();
    DefaultRoutesResult();
    DefaultRoutesRegistered();
  }

  /** The default table's keys are the codes of the nine default classes. */
  lemma DefaultKeys()
    ensures Configure(DefaultMessages).Keys == {WELCOME, GOODBYE, REGISTERED, INVOCATION, YIELD, RESULT, ERROR, SUBSCRIBED, EVENT}
  {
    var classes := DefaultMessages;
    var codes := set c | c in classes :: c.WampCode();
    forall code | code in codes ensures code in {2, 6, 65, 68, 70, 50, 8, 33, 36} {
      var c :| c in classes && c.WampCode() == code;
    }
    assert WelcomeMsg in classes && GoodbyeMsg in classes && RegisteredMsg in classes;
    assert InvocationMsg in classes && YieldMsg in classes && ResultMsg in classes;
    assert ErrorMsg in classes && SubscribedMsg in classes && EventMsg in classes;
  }

  /** The default table sends RESULT frames to `Result`. */
  lemma DefaultRoutesResult()
    ensures RESULT in Configure(DefaultMessages) && Configure(DefaultMessages)[RESULT] == ResultMsg
  {
    assert DefaultMessages[5] == ResultMsg;
    ConfigureLaterWins(DefaultMessages, 5);
  }

  /** The default table sends REGISTERED frames to `Registered`. */
  lemma DefaultRoutesRegistered()
    ensures REGISTERED in Configure(DefaultMessages) && Configure(DefaultMessages)[REGISTERED] == RegisteredMsg
  {
    assert DefaultMessages[2] == RegisteredMsg;
    ConfigureLaterWins(DefaultMessages, 2);
  }

  /** The code a frame leads with, when it is one the handler's table holds. */
  predicate Handles(h: MessageHandler, code: Value) {
    code.Int? && code.i in h.messages
  }

  /** The name of a code in the message type table, if it has one. */
  function TypeNameOf(code: Value): Option<string> {
    if code.Int? && code.i in MessageTypeMap then Some(MessageTypeMap[code.i]) else None
  }

  /** `message_class(*message)`: RESULT and REGISTERED check their arguments
      and rebuild the frame as their wire list; any other class is taken to
      construct. The only construction errors are the argument-count and
      code checks. */
  function Construct(cls: MessageClass, args: Frame): (r: Result<Message>)
    ensures cls == ResultMsg ==>
              && (r.Ok? <==> 3 <= |args| <= 5 && args[0] == Int(RESULT))
              && (r.Ok? ==> r.value.AResult? && r.value.result.Wire()[..|args|] == args)
    ensures cls == RegisteredMsg ==>
              && (r.Ok? <==> |args| == 3 && args[0] == Int(REGISTERED))
              && (r.Ok? ==> r.value.ARegistered? && r.value.registered.Wire() == args)
    ensures cls != ResultMsg && cls != RegisteredMsg ==> r == Ok(Unmodelled(cls, args))
    ensures r.Err? ==> r.error == TypeError || r.error == AssertionError
  {
    match cls
    case ResultMsg =>
      var m :- ResultMessages.New(args);
      Ok(AResult(m))
    case RegisteredMsg =>
      var m :- RegisteredMessages.New(args);
      Ok(ARegistered(m))
    case _ => Ok(Unmodelled(cls, args))
  }

  /** `message_obj.process(message=message, client=client)`. */
  function Process(m: Message, message: Frame, requestIds: map<Value, RequestEntry>, s: Session): Result<Session> {
    match m
    case AResult(_) => Ok(ResultMessages.Process(message, s))
    case ARegistered(_) => RegisteredMessages.Process(message, requestIds, s)
    case Unmodelled(cls, _) => Ok(s.(delegated := s.delegated + [(cls, message)]))
  }

  /** Construct the selected class from the frame and run its `process` once,
      on the original frame. */
  function Dispatch(cls: MessageClass, message: Frame, requestIds: map<Value, RequestEntry>, s: Session): Result<Session> {
    var m :- Construct(cls, message);
    Process(m, message, requestIds, s)
  }

  /** `handle_message` as written: the error for an unhandled code is formatted
      with `MESSAGE_TYPE_MAP[wamp_code]`, and the log line for a handled code
      does the same lookup, so a code missing from that map raises `KeyError`. */
  function HandleMessageAsWritten(h: MessageHandler, message: Frame, requestIds: map<Value, RequestEntry>, s: Session): (r: Result<Session>)
    ensures |message| == 0 ==> r == Err(IndexError)
    ensures |message| > 0 && !(message[0].Int? && message[0].i in MessageTypeMap) && !(message[0].List? || message[0].Dict?)
            ==> r == Err(KeyError(message[0]))
  {
    if |message| == 0 then Err(IndexError)
    else
      var code := message[0];
      if code.List? || code.Dict? then Err(TypeError)    // unhashable key in a dict lookup
      else if !Handles(h, code) then
        if TypeNameOf(code).Some? then Err(WampyError(NoHandlerFor(code, TypeNameOf(code))))
        else Err(KeyError(code))
      else if TypeNameOf(code).None? then Err(KeyError(code))
      else Dispatch(h.messages[code.i], message, requestIds, s)
  }

  /** `handle_message`, with the type-name lookups only describing the code:
      an unhandled code always raises `WampyError` naming that code, and a
      handled one is constructed and processed exactly once. */
  function HandleMessage(h: MessageHandler, message: Frame, requestIds: map<Value, RequestEntry>, s: Session): (r: Result<Session>)
    ensures |message| == 0 ==> r == Err(IndexError)
    ensures |message| > 0 && (message[0].List? || message[0].Dict?) ==> r == Err(TypeError)
    ensures |message| > 0 && !(message[0].List? || message[0].Dict?) && !Handles(h, message[0])
            ==> r == Err(WampyError(NoHandlerFor(message[0], TypeNameOf(message[0]))))
    ensures r.Ok? ==> |message| > 0 && Handles(h, message[0])
    ensures |message| > 0 && Handles(h, message[0]) ==>
              var built := Construct(h.messages[message[0].i], message);
              (built.Err? ==> r == Err(built.error))
              && (built.Ok? ==> r == Process(built.value, message, requestIds, s))
  {
    if |message| == 0 then Err(IndexError)
    else
      var code := message[0];
      if code.List? || code.Dict? then Err(TypeError)
      else if !Handles(h, code) then Err(WampyError(NoHandlerFor(code, TypeNameOf(code))))
      else Dispatch(h.messages[code.i], message, requestIds, s)
  }

  /** The two versions differ only in which error an unnamed code raises. */
  lemma HandleMessageAgreesOnNamedCodes(h: MessageHandler, message: Frame, requestIds: map<Value, RequestEntry>, s: Session)
    requires |message| > 0 ==> message[0].Int? && message[0].i in MessageTypeMap
    ensures HandleMessageAsWritten(h, message, requestIds, s) == HandleMessage(h, message, requestIds, s)
  {
  }

  /** A code that neither the handler's table nor the message type table
      knows: as written the handler raises `KeyError`, not the `WampyError`
      it sets out to raise. */
  lemma UnnamedCodeRaisesKeyError(h: MessageHandler, code: int, requestIds: map<Value, RequestEntry>, s: Session)
    requires code !in h.messages && code !in MessageTypeMap
    ensures HandleMessageAsWritten(h, [Int(code)], requestIds, s) == Err(KeyError(Int(code)))
    ensures HandleMessage(h, [Int(code)], requestIds, s) == Err(WampyError(NoHandlerFor(Int(code), None)))
  {
  }

  /** A handler with the default table (see `DefaultHandlerTable`) meets code 999 this way. */
  lemma DefaultTableOn999(h: MessageHandler, requestIds: map<Value, RequestEntry>, s: Session)
    requires h.messages.Keys == {WELCOME, GOODBYE, REGISTERED, INVOCATION, YIELD, RESULT, ERROR, SUBSCRIBED, EVENT}
    ensures HandleMessageAsWritten(h, [Int(999)], requestIds, s) == Err(KeyError(Int(999)))
    ensures HandleMessage(h, [Int(999)], requestIds, s) == Err(WampyError(NoHandlerFor(Int(999), None)))
  {
    assert 999 !in MessageTypeMap;
    UnnamedCodeRaisesKeyError(h, 999, requestIds, s);
  }

  /** `__call__` is `handle_message`. */
  function Call(h: MessageHandler, message: Frame, requestIds: map<Value, RequestEntry>, s: Session): (r: Result<Session>)
    ensures r == HandleMessage(h, message, requestIds, s)
  {
    HandleMessage(h, message, requestIds, s)
  }

  /** A RESULT frame through a handler that routes 50 to `Result`: the frame is
      queued unchanged and nothing else changes. */
  lemma HandleResultQueuesFrame(h: MessageHandler, message: Frame, requestIds: map<Value, RequestEntry>, s: Session)
    requires RESULT in h.messages && h.messages[RESULT] == ResultMsg
    requires 3 <= |message| <= 5 && message[0] == Int(RESULT)
    ensures HandleMessage(h, message, requestIds, s) == Ok(s.(queue := s.queue + [message]))
  {
  }

  /** A REGISTERED frame through a handler that routes 65 to `Registered`: the
      registration id is bound to the entry of the request id, or `KeyError`
      when the request id was never recorded. */
  lemma HandleRegisteredBinds(h: MessageHandler, message: Frame, requestIds: map<Value, RequestEntry>, s: Session)
    requires REGISTERED in h.messages && h.messages[REGISTERED] == RegisteredMsg
    requires |message| == 3 && message[0] == Int(REGISTERED)
    ensures message[1] in requestIds ==>
              HandleMessage(h, message, requestIds, s)
              == Ok(s.(registrationMap := s.registrationMap[message[2] := requestIds[message[1]]]))
    ensures message[1] !in requestIds ==> HandleMessage(h, message, requestIds, s) == Err(KeyError(message[1]))
  {
  }

  /** Any other handled class: its `process` runs exactly once, on the original frame. */
  lemma HandleOtherProcessesOnce(h: MessageHandler, message: Frame, requestIds: map<Value, RequestEntry>, s: Session)
    requires |message| > 0 && Handles(h, message[0])
    requires h.messages[message[0].i] != ResultMsg && h.messages[message[0].i] != RegisteredMsg
    ensures HandleMessage(h, message, requestIds, s).Ok?
    ensures HandleMessage(h, message, requestIds, s).value.delegated == s.delegated + [(h.messages[message[0].i], message)]
  {
  }
}

=== FILE: message_types.dfy ===
/**
 WAMP message codes (section 6.5 of draft-oberstet-hybi-tavendo-wamp-02) and
 the message classes a `MessageHandler` can be configured with.
 */
module MessageTypes {

  const HELLO := 1
  const WELCOME := 2
  const GOODBYE := 6
  const ERROR := 8
  const SUBSCRIBE := 32
  const SUBSCRIBED := 33
  const EVENT := 36
  const RESULT := 50
  const REGISTER := 64
  const REGISTERED := 65
  const INVOCATION := 68
  const YIELD := 70

  /** The code -> name table used to describe a code in errors and logs. */
  const MessageTypeMap: map<int, string> := map[
    HELLO := "HELLO", WELCOME := "WELCOME", 3 := "ABORT", 4 := "CHALLENGE",
    5 := "AUTHENTICATE", GOODBYE := "GOODBYE", ERROR := "ERROR",
    16 := "PUBLISH", 17 := "PUBLISHED",
    SUBSCRIBE := "SUBSCRIBE", SUBSCRIBED := "SUBSCRIBED", 34 := "UNSUBSCRIBE",
    35 := "UNSUBSCRIBED", EVENT := "EVENT",
    48 := "CALL", 49 := "CANCEL", RESULT := "RESULT",
    REGISTER := "REGISTER", REGISTERED := "REGISTERED", 66 := "UNREGISTER",
    67 := "UNREGISTERED", INVOCATION := "INVOCATION", 69 := "INTERRUPT", YIELD := "YIELD"
  ]

  /** A message class: the nine built-in inbound classes, or an application's
      own class, known here only by its name and its `WAMP_CODE`. */
  datatype MessageClass =
    | WelcomeMsg
    | GoodbyeMsg
    | RegisteredMsg
    | InvocationMsg
    | YieldMsg
    | ResultMsg
    | ErrorMsg
    | SubscribedMsg
    | EventMsg
    | CustomMsg(name: string, code: int)
  {
    /** The class attribute `WAMP_CODE`. */
    function WampCode(): int {
      match this
      case WelcomeMsg => WELCOME
      case GoodbyeMsg => GOODBYE
      case RegisteredMsg => REGISTERED
      case InvocationMsg => INVOCATION
      case YieldMsg => YIELD
      case ResultMsg => RESULT
      case ErrorMsg => ERROR
      case SubscribedMsg => SUBSCRIBED
      case EventMsg => EVENT
      case CustomMsg(_, c) => c
    }
  }
}

=== FILE: python.dfy ===
/**
 The slice of Python's value model that the WAMP client core relies on:
 JSON-shaped values (wire frames and router configuration are both built
 from them), truthiness, the exceptions the core raises or lets escape, and
 the subscript/`len`/`dict.get` operations it applies to untrusted values.
 */
module Python {

  datatype Option<+T> = None | Some(value: T)

  /** A JSON-like value: the elements of a WAMP frame or of a parsed config. */
  datatype Value =
    | Null
    | Bool(b: bool)
    | Int(i: int)
    | Str(s: string)
    | List(items: seq<Value>)
    | Dict(entries: map<string, Value>)

  /** A WAMP frame as it arrives from the transport: a positional list. */
  type Frame = seq<Value>

  /** Python's `bool(v)`. */
  predicate Truthy(v: Value) {
    match v
    case Null => false
    case Bool(b) => b
    case Int(i) => i != 0
    case Str(s) => |s| > 0
    case List(xs) => |xs| > 0
    case Dict(d) => |d| > 0
  }

  /** Why a `WampyError` was raised. */
  datatype WampyCause =
    | NoHandlerFor(code: Value, typeName: Option<string>)
    | SingleTransportOnly
    | UrlRequired
    | UnknownIpv(ipv: Value)

  /** The exceptions that can leave the modelled code paths. */
  datatype Exc =
    | AssertionError
    | TypeError                   // wrong number of constructor arguments, bad subscript
    | ValueError                  // tuple unpacking of a list with the wrong length
    | IndexError
    | KeyError(key: Value)
    | AttributeError(attribute: string)
    | WampyError(cause: WampyCause)
    | WampProtocolError(subject: string)
    | SocketError
    | Timeout                     // eventlet's `Timeout`: a bounded wait expired
    | Raised(name: string, kind: ExcKind)   // any other exception, passed through unchanged

  /** Where an exception not named above sits in Python's class hierarchy. */
  datatype ExcKind =
    | OrdinaryException    // derives from `Exception`, not from `ValueError`
    | ValueErrorSubclass   // derives from `ValueError`, such as `UnicodeError`
    | BaseExceptionOnly    // derives from `BaseException` only, such as `KeyboardInterrupt` or `SystemExit`

  /** Whether `except Exception` catches `e`. eventlet's `Timeout` derives
      from `BaseException` only. */
  predicate IsException(e: Exc) {
    match e
    case Timeout => false
    case Raised(_, kind) => !kind.BaseExceptionOnly?
    case _ => true
  }

  /** Whether `except ValueError` catches `e`. */
  predicate IsValueError(e: Exc) {
    e.ValueError? || (e.Raised? && e.kind.ValueErrorSubclass?)
  }

  /** A computation that either returns a value or raises. */
  datatype Result<+T> = Ok(value: T) | Err(error: Exc) {
    predicate IsFailure() {
      Err?
    }

    function PropagateFailure<U>(): Result<U>
      requires Err?
    {
      Err(error)
    }

    function Extract(): T
      requires Ok?
    {
      value
    }
  }

  /** `v[key]` for a string key. */
  function Item(v: Value, key: string): Result<Value> {
    match v
    case Dict(d) => if key in d then Ok(d[key]) else Err(KeyError(Str(key)))
    case _ => Err(TypeError)
  }

  /** `v[0]`. */
  function First(v: Value): Result<Value> {
    match v
    case List(xs) => if |xs| > 0 then Ok(xs[0]) else Err(IndexError)
    case Str(s) => if |s| > 0 then Ok(Str([s[0]])) else Err(IndexError)
    case Dict(_) => Err(KeyError(Int(0)))
    case _ => Err(TypeError)
  }

  /** `len(v)`. */
  function Len(v: Value): Result<nat> {
    match v
    case List(xs) => Ok(|xs|)
    case Str(s) => Ok(|s|)
    case Dict(d) => Ok(|d|)
    case _ => Err(TypeError)
  }

  /** `v.get(key)`: `None` both for a missing key and for an explicit null. */
  function Get(v: Value, key: string): Result<Value> {
    match v
    case Dict(d) => Ok(if key in d then d[key] else Null)
    case _ => Err(AttributeError("get"))
  }
}

=== FILE: registered_message.dfy ===
/**
 The REGISTERED message (code 65): the dealer's acknowledgement of a REGISTER,
 `[REGISTERED, REGISTER.Request|id, Registration|id]`.
 */
module RegisteredMessages {
  import opened Python
  import opened MessageTypes
  import opened Sessions

  datatype RegisteredMessage = RegisteredMessage(requestId: Value, registrationId: Value) {
    function Wire(): Frame {
      [Int(REGISTERED), requestId, registrationId]
    }
  }

  /** `Registered(*args)`: exactly three positional arguments, the first being the code. */
  function New(args: seq<Value>): (r: Result<RegisteredMessage>)
    ensures r.Ok? <==> |args| == 3 && args[0] == Int(REGISTERED)
    ensures |args| != 3 ==> r == Err(TypeError)
    ensures |args| == 3 && args[0] != Int(REGISTERED) ==> r == Err(AssertionError)
    ensures r.Ok? ==> r.value.Wire() == args
  {
    if |args| != 3 then Err(TypeError)
    else if args[0] != Int(REGISTERED) then Err(AssertionError)
    else Ok(RegisteredMessage(args[1], args[2]))
  }

  /** Building a REGISTERED from its own wire list gives back the same message. */
  lemma RoundTrip(m: RegisteredMessage)
    ensures New(m.Wire()) == Ok(m)
  {
  }

  /** `Registered.process`: the entry recorded for the request id becomes the
      entry of the registration id; no other registration and nothing else
      in the session changes. An unknown request id raises `KeyError`. */
  function Process(message: Frame, requestIds: map<Value, RequestEntry>, s: Session): (r: Result<Session>)
    ensures r.Ok? <==> |message| == 3 && message[1] in requestIds
    ensures |message| != 3 ==> r == Err(ValueError)
    ensures |message| == 3 && message[1] !in requestIds ==> r == Err(KeyError(message[1]))
    ensures r.Ok? ==> message[2] in r.value.registrationMap
                      && r.value.registrationMap[message[2]] == requestIds[message[1]]
    ensures r.Ok? ==> forall id | id != message[2] ::
                        (id in r.value.registrationMap <==> id in s.registrationMap)
                        && (id in s.registrationMap ==> r.value.registrationMap[id] == s.registrationMap[id])
    ensures r.Ok? ==> r.value == s.(registrationMap := r.value.registrationMap)
  {
    if |message| != 3 then Err(ValueError)
    else
      var requestId, registrationId := message[1], message[2];
      if requestId !in requestIds then Err(KeyError(requestId))
      else Ok(s.(registrationMap := s.registrationMap[registrationId := requestIds[requestId]]))
  }
}

=== FILE: result_message.dfy ===
/**
 The RESULT message (code 50): the dealer's reply to a CALL,
 `[RESULT, CALL.Request|id, Details|dict, YIELD.Arguments|list?, YIELD.ArgumentsKw|dict?]`.
 */
module ResultMessages {
  import opened Python
  import opened MessageTypes
  import opened Sessions

  datatype ResultMessage = ResultMessage(requestId: Value, details: Value, yieldArgs: Value, yieldKwargs: Value) {
    /** The message's wire list: absent arguments are kept as null placeholders. */
    function Wire(): Frame {
      [Int(RESULT), requestId, details, yieldArgs, yieldKwargs]
    }
  }

  /** The positional argument at `i`, or the parameter's default `None`. */
  function ArgOrNull(args: seq<Value>, i: nat): Value {
    if i < |args| then args[i] else Null
  }

  /** `Result(*args)`: three to five positional arguments, the first being the code. */
  function New(args: seq<Value>): (r: Result<ResultMessage>)
    ensures r.Ok? <==> 3 <= |args| <= 5 && args[0] == Int(RESULT)
    ensures (|args| < 3 || 5 < |args|) ==> r == Err(TypeError)
    ensures 3 <= |args| <= 5 && args[0] != Int(RESULT) ==> r == Err(AssertionError)
    ensures r.Ok? ==> r.value.requestId == args[1] && r.value.details == args[2]
    ensures r.Ok? ==> |r.value.Wire()| == 5 && r.value.Wire()[0] == Int(RESULT)
    ensures r.Ok? ==> r.value.Wire()[..|args|] == args
    ensures r.Ok? ==> forall i | |args| <= i < 5 :: r.value.Wire()[i] == Null
  {
    if |args| < 3 || 5 < |args| then Err(TypeError)
    else if args[0] != Int(RESULT) then Err(AssertionError)
    else Ok(ResultMessage(args[1], args[2], ArgOrNull(args, 3), ArgOrNull(args, 4)))
  }

  /** Building a RESULT from its own wire list gives back the same message. */
  lemma RoundTrip(m: ResultMessage)
    ensures New(m.Wire()) == Ok(m)
  {
  }

  /** `Result.process`: the raw frame goes onto the session's inbound queue,
      and nothing else in the session changes. */
  function Process(message: Frame, s: Session): (s': Session)
    ensures |s'.queue| == |s.queue| + 1
    ensures s'.queue[..|s.queue|] == s.queue && s'.queue[|s.queue|] == message
    ensures s'.registrationMap == s.registrationMap && s'.subscriptionMap == s.subscriptionMap
    ensures s'.sent == s.sent && s'.delegated == s.delegated
  {
    s.(queue := s.queue + [message])
  }
}

=== FILE: routers.dfy ===
/**
 `Crossbar`: validation of a parsed router configuration, TLS availability,
 and the address-family choice of a connection probe. Reading the JSON file
 and parsing the URL are done elsewhere; their results are inputs.
 */
module Routers {
  import opened Python

  /** What `parse_url` extracts from the transport's `url`. */
  datatype ParsedUrl = ParsedUrl(host: string, port: int, resource: string)

  datatype Crossbar = Crossbar(
    config: Value,
    configPath: string,
    realm: Value,
    roles: Value,
    transport: Value,
    url: Value,
    ipv: Value,
    host: string,
    port: int,
    websocketLocation: string,
    crossbarDirectory: Value,
    certificate: Value
  )

  /** `config['workers'][0]` */
  function WorkerOf(config: Value): Result<Value> {
    var workers :- Item(config, "workers");
    First(workers)
  }

  /** `worker['realms'][0]` */
  function RealmOf(worker: Value): Result<Value> {
    var realms :- Item(worker, "realms");
    First(realms)
  }

  /** `worker['transports']` of the first worker. */
  function TransportsOf(config: Value): Result<Value> {
    var worker :- WorkerOf(config);
    Item(worker, "transports")
  }

  /** The IP version a transport's endpoint asks for, 4 when it names none. */
  function IpVersion(transport: Value): Result<Value> {
    var endpoint :- Item(transport, "endpoint");
    var version :- Get(endpoint, "version");
    Ok(if version == Null then Int(4) else version)
  }

  /** `Crossbar(config_path, crossbar_directory, certificate)` once the file
      has been parsed into `config`: the first realm of the first worker and
      its roles are taken, more than one transport is refused before anything
      about the transport is looked at, the transport must have a `url`, and
      the IP version defaults to 4. */
  function New(config: Value, configPath: string, parsed: ParsedUrl,
               crossbarDirectory: Value, certificate: Value): (r: Result<Crossbar>)
    ensures r.Ok? ==> WorkerOf(config).Ok? && RealmOf(WorkerOf(config).value).Ok?
    ensures r.Ok? ==> var realm := RealmOf(WorkerOf(config).value).value;
                      r.value.realm == realm && Item(realm, "roles") == Ok(r.value.roles)
    ensures r.Ok? ==> var transports := TransportsOf(config);
                      && transports.Ok? && transports.value.List? && transports.value.items == [r.value.transport]
    ensures r.Ok? ==> r.value.url != Null && Get(r.value.transport, "url") == Ok(r.value.url)
    ensures r.Ok? ==> IpVersion(r.value.transport) == Ok(r.value.ipv)
    ensures r.Ok? ==> r.value.host == parsed.host && r.value.port == parsed.port
                      && r.value.websocketLocation == parsed.resource
                      && r.value.certificate == certificate && r.value.crossbarDirectory == crossbarDirectory
    // more than one transport: refused, whatever the transports hold
    ensures WorkerOf(config).Ok? && RealmOf(WorkerOf(config).value).Ok?
            && Item(RealmOf(WorkerOf(config).value).value, "roles").Ok?
            && TransportsOf(config).Ok? && Len(TransportsOf(config).value).Ok?
            && Len(TransportsOf(config).value).value > 1
            ==> r == Err(WampyError(SingleTransportOnly))
    // a single transport without a url (or with a null one): refused
    ensures WorkerOf(config).Ok? && RealmOf(WorkerOf(config).value).Ok?
            && Item(RealmOf(WorkerOf(config).value).value, "roles").Ok?
            && TransportsOf(config).Ok? && TransportsOf(config).value.List?
            && |TransportsOf(config).value.items| == 1
            && Get(TransportsOf(config).value.items[0], "url") == Ok(Null)
            ==> r == Err(WampyError(UrlRequired))
  {
    var worker :- WorkerOf(config);
    var realm :- RealmOf(worker);
    var roles :- Item(realm, "roles");
    var transports :- Item(worker, "transports");
    var count :- Len(transports);
    if count > 1 then Err(WampyError(SingleTransportOnly))
    else
      var transport :- First(transports);
      var url :- Get(transport, "url");
      if url == Null then Err(WampyError(UrlRequired))
      else
        var ipv :- IpVersion(transport);
        Ok(Crossbar(config, configPath, realm, roles, transport, url, ipv,
                    parsed.host, parsed.port, parsed.resource, crossbarDirectory, certificate))
  }

  /** A configuration with one worker, one realm and one transport that has a
      url and an endpoint is accepted; the endpoint's version is kept when it
      has one and is 4 otherwise. */
  lemma ValidConfigAccepted(realm: Value, roles: Value, url: Value, endpoint: map<string, Value>,
                            rest: map<string, Value>, configPath: string, parsed: ParsedUrl,
                            crossbarDirectory: Value, certificate: Value)
    requires realm.Dict? && "roles" in realm.entries && realm.entries["roles"] == roles
    requires url != Null
    ensures var transport := Dict(rest["url" := url]["endpoint" := Dict(endpoint)]);
            var config := Dict(map["workers" := List([Dict(map["realms" := List([realm]), "transports" := List([transport])])])]);
            var r := New(config, configPath, parsed, crossbarDirectory, certificate);
            && r.Ok?
            && r.value.realm == realm && r.value.roles == roles && r.value.url == url
            && ("version" !in endpoint || endpoint["version"] == Null ==> r.value.ipv == Int(4))
            && ("version" in endpoint && endpoint["version"] != Null ==> r.value.ipv == endpoint["version"])
  {
  }

  /** The `can_use_tls` property: a certificate was given (a non-empty path). */
  function CanUseTls(cb: Crossbar): (r: bool)
    ensures cb.certificate == Null ==> !r
    ensures cb.certificate.Str? ==> (r <==> |cb.certificate.s| > 0)
  {
    Truthy(cb.certificate)
  }

  datatype Family = AfInet | AfInet6

  /** The socket `try_connection` opens and the address it connects to. */
  datatype Probe = Probe(family: Family, host: string, port: int)

  /** `try_connection`: IPv4 probes the router's host, IPv6 probes `::`, and
      any other version is refused before a socket is made. A refused connect
      is swallowed, but the following `shutdown` of the unconnected socket
      raises a socket error; `reachable` says whether the connect succeeded. */
  function TryConnection(cb: Crossbar, reachable: bool): (r: Result<Probe>)
    ensures cb.ipv != Int(4) && cb.ipv != Int(6) ==> r == Err(WampyError(UnknownIpv(cb.ipv)))
    ensures (cb.ipv == Int(4) || cb.ipv == Int(6)) && !reachable ==> r == Err(SocketError)
    ensures r.Ok? ==> r.value.port == cb.port
    ensures r.Ok? ==> (r.value.family == AfInet <==> cb.ipv == Int(4))
    ensures r.Ok? && r.value.family == AfInet ==> r.value.host == cb.host
    ensures r.Ok? && r.value.family == AfInet6 ==> r.value.host == "::"
    ensures r.Ok? <==> (cb.ipv == Int(4) || cb.ipv == Int(6)) && reachable
  {
    var probe :-
      if cb.ipv == Int(4) then Ok(Probe(AfInet, cb.host, cb.port))
      else if cb.ipv == Int(6) then Ok(Probe(AfInet6, "::", cb.port))
      else Err(WampyError(UnknownIpv(cb.ipv)));
    if reachable then Ok(probe) else Err(SocketError)
  }
}

=== FILE: sessions.dfy ===
/**
 The state a `Client`'s session holds, as far as inbound message processing
 and request bookkeeping touch it. The inbound queue is a first-in first-out
 sequence; outbound traffic is an append-only log.
 */
module Sessions {
  import opened Python
  import opened MessageTypes

  /** Messages the client sends. */
  datatype Outgoing =
    | Register(requestId: Value, options: Value, procedure: string)
    | Subscribe(requestId: Value, topic: string)
    | Yield(requestId: Value, resultArgs: seq<Value>)

  /** What `Client.request_ids` records for an outstanding request: a procedure
      name for a REGISTER, the SUBSCRIBE message and handler name for a SUBSCRIBE. */
  datatype RequestEntry =
    | ProcedureName(name: string)
    | TopicSubscription(message: Outgoing, handlerName: string)

  datatype Session = Session(
    registrationMap: map<Value, RequestEntry>,
    subscriptionMap: map<Value, Value>,            // filled by SUBSCRIBED, whose `process` is not modelled
    queue: seq<Frame>,                             // frames put on the inbound queue and not yet taken, oldest first
    sent: seq<Outgoing>,                           // every message handed to the transport, in order
    delegated: seq<(MessageClass, Frame)>          // process() calls of classes not modelled here
  )

  /** A session as a freshly built client starts with it. */
  function EmptySession(): Session {
    Session(map[], map[], [], [], [])
  }
}

=== FILE: tables.dfy ===
/**
 Sequential dictionary assignment, `for k, v in pairs: m[k] = v`, the shape
 shared by the handler's code table and the entrypoint request map: every
 listed key ends up present, unlisted keys keep their value, and when a key is
 listed twice the later assignment wins.
 */
module Tables {

  /** The keys a sequence of assignments writes. */
  function Keys<K, V>(pairs: seq<(K, V)>): set<K> {
    set i | 0 <= i < |pairs| :: pairs[i].0
  }

  /** No assignment after position `i` writes the key written at `i`. */
  predicate LastWrite<K(==), V>(pairs: seq<(K, V)>, i: int)
    requires 0 <= i < |pairs|
  {
    forall j | i < j < |pairs| :: pairs[j].0 != pairs[i].0
  }

  /** `m` after performing the assignments of `pairs` from first to last. */
  function Assign<K, V>(m: map<K, V>, pairs: seq<(K, V)>): (r: map<K, V>)
    ensures r.Keys == m.Keys + Keys(pairs)
    ensures forall k | k in m && k !in Keys(pairs) :: r[k] == m[k]
    ensures forall k | k in r :: (k, r[k]) in pairs || (k in m && r[k] == m[k])
    decreases |pairs|
  {
    if |pairs| == 0 then m
    else
      var init := pairs[..|pairs| - 1];
      var last := pairs[|pairs| - 1];
      assert Keys(pairs) == Keys(init) + {last.0} by {
        forall k | k in Keys(pairs) ensures k in Keys(init) + {last.0} {
          var i :| 0 <= i < |pairs| && pairs[i].0 == k;
          if i < |pairs| - 1 {
            assert init[i] == pairs[i];
          }
        }
        forall k | k in Keys(init) ensures k in Keys(pairs) {
          var i :| 0 <= i < |init| && init[i].0 == k;
          assert pairs[i] == init[i];
        }
      }
      var prior := Assign(m, init);
      assert forall p | p in init :: p in pairs;
      prior[last.0 := last.1]
  }

  /** Appending one assignment is one more dictionary update. */
  lemma AssignSnoc<K, V>(m: map<K, V>, pairs: seq<(K, V)>, p: (K, V))
    ensures Assign(m, pairs + [p]) == Assign(m, pairs)[p.0 := p.1]
  {
    assert (pairs + [p])[..|pairs|] == pairs;
  }

  /** The value stored under a key is the one written by its last assignment. */
  lemma {:induction false} LastWriteWins<K, V>(m: map<K, V>, pairs: seq<(K, V)>, i: int)
    requires 0 <= i < |pairs|
    requires LastWrite(pairs, i)
    ensures pairs[i].0 in Assign(m, pairs)
    ensures Assign(m, pairs)[pairs[i].0] == pairs[i].1
    decreases |pairs|
  {
    var n := |pairs| - 1;
    var init := pairs[..n];
    assert pairs == init + [pairs[n]];
    AssignSnoc(m, init, pairs[n]);
    if i < n {
      assert init[i] == pairs[i];
      assert LastWrite(init, i) by {
        forall j | i < j < |init| ensures init[j].0 != init[i].0 {
          assert init[j] == pairs[j];
        }
      }
      LastWriteWins(m, init, i);
      assert pairs[n].0 != pairs[i].0;
    }
  }
}
